=== FILE: README.md ===
# Expression trees: construction sugar and rendering

A Dafny model of `expressions/expressions.py`. That file defines the classes of a small
symbolic-expression library:

- two terminals, `Number` and `Symbol`, each holding a `value`;
- five binary operators, `Add`, `Sub`, `Mul`, `Div` and `Pow`, which keep their
  constructor arguments in the tuple `o`;
- the arithmetic dunder methods on `Expression`, which let `x + 1`, `2 * x` and
  `x ** 2` build operator nodes;
- `__str__` and `__repr__` on `Terminal` and `Operator`.

The files are:

- `wrappers.dfy` (module `Wrappers`): `Option` and a `Result` that carries a Python exception.
- `text.dfy` (module `Text`): Python's `str` of an integer, with a parser proved to invert it.
  It also holds `sep.join`, character counts, and the facts about parentheses that rendering needs.
- `expressions.dfy` (module `Expressions`): the object model and the construction sugar.
  - A Python object is a `Value`: a bare `Int`, a `Str`, a `Number`, a `Symbol` or an `Operator`.
  - `Number` keeps `Option<int>` and `Symbol` keeps `Option<string>`. `None` is a terminal
    whose constructor left `value` unset.
  - `Operator(kind, o)` keeps the whole argument tuple, of any length and element type, as
    `Expression.__init__` does.
  - `Binary(k, a, b)` is Python's evaluation of the written expression `a <op> b`. It runs the
    forward dunder of a left `Expression`, and otherwise the reflected dunder of the right one.
- `rendering.dfy` (module `Rendering`): `Render` (Python `str`) and `Repr` (Python `repr`).
  Both are `Result`s. `str` raises for unset values and short operand tuples, `repr` only for
  unset values.

Behaviour the code has, which the model keeps:

- Only bare numbers are wrapped in `Number`. An expression is never re-wrapped. A string
  operand is stored raw: `x + "y"` builds `Add(x, "y")`.
- The guards on `self` in `__sub__`, `__mul__` and `__pow__` never fire, because Python only
  calls these methods on an `Expression`.
- Each reflected dunder returns `self <op> other`. So `5 - x` builds `Sub(x, Number(5))` and
  renders as `x - 5`, and `1 / x` builds `Div(x, Number(1))`.
- There is no `__rpow__`, so `2 ** x` raises `TypeError`.
- `Number("a")` and `Symbol(5)` succeed but leave `value` unset. `str` or `repr` of such a
  node then raises `AttributeError`.
- `str` of an operator renders `o[0]` before it reads `o[1]`. So an empty tuple, or a
  one-element tuple whose `o[0]` renders, raises `IndexError`; a failing `str(o[0])` raises its
  own error first. Operands after the second are ignored by `str` and shown by `repr`, which
  never raises for a short tuple (`Add()` has repr `Add()`).
- `str` never writes parentheses. So `(a + b) * c` and `a + b * c` render alike.

## Model

| member | source | states |
|---|---|---|
| Expressions.NewNumber | expressions/expressions.py:78-81 | `Number(v)` always builds a `Number`. It holds a value exactly when `v` is numeric, and then the value is `v`. It never fails. |
| Expressions.NewSymbol | expressions/expressions.py:84-87 | `Symbol(v)` always builds a `Symbol`. It holds a value exactly when `v` is a string, and then the value is `v`. It never fails. |
| Expressions.Coerce | expressions/expressions.py:9-10 | The operand guard wraps a bare number `n` as `Number(n)` and passes every other value through unchanged. Its result is never a bare number. |
| Expressions.Plus | expressions/expressions.py:8-11 | `e + other` builds `Add` with operands `(e, other)`. A bare number is wrapped; anything else is stored as given. |
| Expressions.Minus | expressions/expressions.py:16-21 | `e - other` builds `Sub(e, other')`. `self` stays unwrapped, so the guard on `self` is dead. |
| Expressions.Times | expressions/expressions.py:26-31 | `e * other` builds `Mul(e, other')`. `self` stays unwrapped, so the guard on `self` is dead. |
| Expressions.Divide | expressions/expressions.py:36-39 | `e / other` builds `Div(e, other')`. A bare number is wrapped. |
| Expressions.Power | expressions/expressions.py:44-49 | `e ** other` builds `Pow(e, other')`. `self` stays unwrapped, so the guard on `self` is dead. |
| Expressions.Forward | expressions/expressions.py:8-49 | Every forward dunder builds the node of its own class with operands `(self, other)`. Only `other` is ever wrapped. |
| Expressions.RPlus | expressions/expressions.py:13-14 | `__radd__(e, other)` succeeds with the same node as `e + other`. |
| Expressions.RMinus | expressions/expressions.py:23-24 | `__rsub__(e, other)` succeeds with the same node as `e - other`. This is the node with the operands swapped relative to the written `other - e`. |
| Expressions.RTimes | expressions/expressions.py:33-34 | `__rmul__(e, other)` succeeds with the same node as `e * other`. |
| Expressions.RDivide | expressions/expressions.py:41-42 | `__rtruediv__(e, other)` succeeds with the same node as `e / other`. |
| Expressions.Binary | expressions/expressions.py:8-49 | `a <op> b` with a left expression builds `(a, b')`. With a non-expression on the left it builds `(b, a')`, except for `**`, which raises `TypeError`. |
| Expressions.WrittenOrderIgnored | expressions/expressions.py:13-42 | For `+ - * /`, `n <op> e` and `e <op> n` build the same node, `(e, Number(n))`. |
| Expressions.NoReflectedPower | expressions/expressions.py:44-49 | `n ** e` raises `TypeError`, while `e ** n` builds `Pow(e, Number(n))`. |
| Expressions.ExpressionsNotRewrapped | expressions/expressions.py:5-11 | Two expressions combine into a node whose tuple `o` is exactly `(a, b)`. |
| Expressions.StringsNotWrapped | expressions/expressions.py:8-11 | A string operand is stored raw, on either side, and never wrapped. |
| Expressions.SugarShape | expressions/expressions.py:8-49 | Any node the sugar builds has two operands. The left one is an expression and the right one is never a bare number. |
| Expressions.ReflectedSubtractionReversed | expressions/expressions.py:23-24 | `5 - x` builds `Sub(x, Number(5))`, not the written-order `Sub(Number(5), x)`. |
| Expressions.ReflectedDivisionReversed | expressions/expressions.py:41-42 | `1 / x` builds `Div(x, Number(1))`, not the written-order node. |
| Expressions.ReflectedInWrittenOrder | expressions/expressions.py:23-24 | Corrected reflected dunder: `other <op> e` builds `(other', e)`, in written order. |
| Expressions.BinaryInWrittenOrder | expressions/expressions.py:41-49 | Corrected sugar: every written `a <op> b` with an expression on either side builds `(a', b')`. This includes `n ** e`. |
| Expressions.CorrectionOnlyReflected | expressions/expressions.py:8-49 | The corrected sugar agrees with the code whenever the left operand is an expression. |
| Rendering.Render | expressions/expressions.py:59-76 | `str` succeeds exactly on `Renderable` values: set terminals, and operators with at least two rendered operands. An unset terminal raises `AttributeError`. An operator raises the error of `str(o[0])` if that fails, then `IndexError` if there is no `o[1]`, then the error of `str(o[1])`. |
| Rendering.Tokens | expressions/expressions.py:66-76 | The laid-out tokens interleave the leaf texts with operator symbols. For `n` leaves there are `2n - 1` tokens. Position `2j` holds the text of leaf `j`, counting left to right through the first two operands of each node. Every odd position is one of `+ - * / ^`. |
| Rendering.RenderIsInfix | expressions/expressions.py:66-76 | `str` of any renderable value is its in-order token sequence joined by single spaces, at every depth. |
| Rendering.RenderBinaryNode | expressions/expressions.py:66-76 | `str` of a binary node is left text, space, symbol, space, right text. `Pow` uses `^`. |
| Rendering.RenderAddsNoParens | expressions/expressions.py:59-76 | If no text of a leaf that `str` reaches contains a parenthesis, the rendered text contains none either. Operands after the second are not constrained. |
| Rendering.RenderSugar | expressions/expressions.py:8-76 | `str` of a node built by a forward dunder is `str(e) sym str(other)`. |
| Rendering.RenderIsAmbiguous | expressions/expressions.py:66-76 | Two distinct trees, `(a + b) * c` and `a + (b * c)`, render to the same text. |
| Rendering.ReflectedSubtractionText | expressions/expressions.py:23-24 | As written, `n - e` renders as `e - n`. Corrected, it renders as `n - e`. |
| Rendering.WrittenOrderText | expressions/expressions.py:66-76 | With the corrected sugar, every written binary expression renders its operands in written order. |
| Rendering.TerminalTextIsValueText | expressions/expressions.py:52-60 | A terminal's `str` and `repr` are those of its value. An unset terminal raises `AttributeError` in both. |
| Rendering.CoerceKeepsText | expressions/expressions.py:56-60 | Wrapping a bare number changes neither `str` nor `repr`. So `repr` cannot tell `Add(x, 5)` from `Add(x, Number(5))`. |
| Rendering.Repr | expressions/expressions.py:56-64 | `repr` succeeds exactly when every terminal at every depth is set, and otherwise raises `AttributeError`. |
| Rendering.ReprOperatorShape | expressions/expressions.py:63-64 | `repr` of an operator node is its class name followed by the tuple of its operands' reprs, in order. A one-element tuple keeps its trailing comma. |
| Rendering.ReprBinaryNode | expressions/expressions.py:63-64 | `repr` of a node built from two operands is `Name(<repr left>, <repr right>)`. |
| Rendering.ReprItems | expressions/expressions.py:63-64 | The repr of an operand tuple has one item per operand, each the operand's own repr, in order. It fails exactly when some operand fails. |
| Rendering.ReprBalanced | expressions/expressions.py:56-64 | If no leaf text contains a parenthesis, the parentheses in `repr` nest properly. There are as many `(` as `)`, and no prefix closes more than it has opened. |
| Rendering.ShortTuplesRender | expressions/expressions.py:66-76 | For a short operand tuple, `str` raises `IndexError` when `o[0]` renders and `AttributeError` when `o[0]` is unset. |
| Rendering.ReprEmptyTuple | expressions/expressions.py:63-64 | `repr` of an operator with no operands succeeds and is its class name followed by `()`, where `str` raises `IndexError`. |
| Rendering.ReprOneTuple | expressions/expressions.py:63-64 | `repr` of an operator with one set operand succeeds and is `Name(<repr operand>,)`, with the trailing comma of a one-element tuple. |
| Rendering.ReprOfReflectedSubtraction | expressions/expressions.py:23-24 | `repr(5 - Symbol("x"))` is `Sub('x', 5)`. |
| Text.ParseIntToString | expressions/expressions.py:59-60 | The decimal text of an integer value reads back to that integer, so distinct values render distinctly. |

## Left out

- Numbers other than integers (float, complex, bool, `Fraction`) are not modelled. Python's
  float formatting is also left out. `numbers.Number` is modelled as "is a bare `Int`".
- Operands of other Python types (`None`, lists, ...) are not modelled. A `Value` is an int,
  a string or an expression.
- Rendering.Repr: a string's repr is modelled as the string between single quotes. Python's
  switch to double quotes and its escaping of quotes, backslashes and unprintable characters
  are not modelled.
- Expressions.Binary: written expressions with no `Expression` operand are ordinary Python
  arithmetic and are excluded by its precondition.
- Expressions.Binary: Python's rule that a right operand whose type subclasses the left's runs
  its reflected method first is not modelled. No expression class subclasses `int` or `str`.
- Object identity and sharing of subexpressions between parents are not modelled. Values are
  compared structurally.
- Direct instances of the base classes `Expression`, `Terminal` and `Operator` are not modelled.
  Neither is the missing `o` attribute on terminals.
- Nothing in expressions/expressions.py evaluates or differentiates an expression. `str` inserts
  no precedence parentheses, and no class has a `precedence` attribute. A mistyped terminal
  raises nothing; it leaves `value` unset (lines 78-87). The model has none of these either.
- Rendering.Render: the recursion is unbounded. Python raises `RecursionError` once nesting
  passes its recursion limit, for example after about a thousand repetitions of `e = e + 1`
  (lines 68-76). Python 3.11 and later also raise `ValueError` from `str` of an int with more
  than 4300 digits (line 60). Neither error is modelled, so `Render` succeeds on such values.
- Rendering.Repr: the same two errors are not modelled for `repr`. Deep nesting recurses through
  `repr(self.o)` (line 64), and line 57 takes `repr` of an int that may exceed the digit limit.

## Findings

| source | as written | input that shows it | evidently intended | confidence | as-written member | corrected member |
|---|---|---|---|---|---|---|
| expressions/expressions.py:23-24 | `__rsub__` returns `self - other` | `5 - x` builds `Sub(x, Number(5))` and renders `x - 5` | `Sub(Number(5), x)`, rendering `5 - x` | high; not executed | Expressions.ReflectedSubtractionReversed | Expressions.BinaryInWrittenOrder |
| expressions/expressions.py:41-42 | `__rtruediv__` returns `self / other` | `1 / x` builds `Div(x, Number(1))` | `Div(Number(1), x)` | high; not executed | Expressions.ReflectedDivisionReversed | Expressions.BinaryInWrittenOrder |
| expressions/expressions.py:44-49 | `Expression` has no `__rpow__` | `2 ** x` raises `TypeError` | `Pow(Number(2), x)` | medium; not executed | Expressions.NoReflectedPower | Expressions.BinaryInWrittenOrder |

The as-written behaviour is modelled by `Expressions.Binary` and the reflected dunders
`RMinus` and `RDivide`. The corrected sugar is `Expressions.BinaryInWrittenOrder`. It is proved
to build `(a', b')` for every written `a <op> b`, to render in written order
(`Rendering.WrittenOrderText`), and to agree with the code whenever the left operand is an
expression (`Expressions.CorrectionOnlyReflected`).

=== FILE: expressions.dfy ===
/**
 The expression classes and their construction sugar.

 A Python object is modelled as a `Value`: a bare number (anything that is a
 `numbers.Number`, restricted here to integers), a string, or an instance of one
 of the concrete expression classes `Number`, `Symbol`, `Add`, `Sub`, `Mul`,
 `Div` and `Pow`. Objects have no identity here: two values are the same when
 they are structurally equal.
 */
module Expressions {
  import opened Wrappers

  /** The five operator classes. */
  datatype OpKind = Add | Sub | Mul | Div | Pow

  /** The Python exceptions the modelled code can raise. */
  datatype PyError =
    | AttributeError  // reading `value` of a terminal whose constructor never set it
    | IndexError      // reading `o[0]` or `o[1]` of an operator built with fewer operands
    | TypeError       // no dunder method accepts the operands

  datatype Value =
    | Int(i: int)
    | Str(s: string)
    /** A `Number` terminal; `num` is `None` when the constructor left `value` unset. */
    | Number(num: Option<int>)
    /** A `Symbol` terminal; `name` is `None` when the constructor left `value` unset. */
    | Symbol(name: Option<string>)
    /** An operator node; `o` is the tuple of constructor arguments, whatever their number and type. */
    | Operator(kind: OpKind, o: seq<Value>)
  {
    /** `isinstance(v, numbers.Number)` */
    predicate IsNumeric() {
      Int?
    }

    /** `isinstance(v, Expression)` */
    predicate IsExpression() {
      Number? || Symbol? || Operator?
    }

    predicate IsTerminal() {
      Number? || Symbol?
    }
  }

  /** The constructor `Number(value)`: it keeps `value` only when it is numeric and never raises. */
  function NewNumber(arg: Value): (r: Value)
    ensures r.Number?
    ensures r.num.Some? <==> arg.IsNumeric()
    ensures r.num.Some? ==> Int(r.num.value) == arg
  {
    if arg.IsNumeric() then Number(Some(arg.i)) else Number(None)
  }

  /** The constructor `Symbol(value)`: it keeps `value` only when it is a string and never raises. */
  function NewSymbol(arg: Value): (r: Value)
    ensures r.Symbol?
    ensures r.name.Some? <==> arg.Str?
    ensures r.name.Some? ==> Str(r.name.value) == arg
  {
    if arg.Str? then Symbol(Some(arg.s)) else Symbol(None)
  }

  /** The guard every dunder method applies to an operand: a bare number is wrapped in `Number`. */
  function Coerce(v: Value): (r: Value)
    ensures !r.IsNumeric()
    ensures v.IsNumeric() ==> r == Number(Some(v.i))
    ensures !v.IsNumeric() ==> r == v
  {
    if v.IsNumeric() then NewNumber(v) else v
  }

  /**
   `r` is the `k` node whose operand tuple is exactly `(e, other)`, except that a bare
   number `other` is first wrapped in `Number`.
   */
  predicate Builds(r: Value, k: OpKind, e: Value, other: Value) {
    && r.Operator?
    && r.kind == k
    && |r.o| == 2
    && r.o[0] == e
    && (other.IsNumeric() ==> r.o[1] == Number(Some(other.i)))
    && (!other.IsNumeric() ==> r.o[1] == other)
  }

  // The forward dunders. Python only calls them on an `Expression` instance, hence
  // the `requires`; that is why the guards on `self` in `Minus`, `Times` and `Power`
  // never fire.

  /** `Expression.__add__` */
  function Plus(self: Value, other: Value): (r: Value)
    requires self.IsExpression()
    ensures Builds(r, Add, self, other)
  {
    Operator(Add, [self, Coerce(other)])
  }

  /** `Expression.__sub__` */
  function Minus(self: Value, other: Value): (r: Value)
    requires self.IsExpression()
    ensures Builds(r, Sub, self, other)
  {
    var s := Coerce(self);
    var t := Coerce(other);
    Operator(Sub, [s, t])
  }

  /** `Expression.__mul__` */
  function Times(self: Value, other: Value): (r: Value)
    requires self.IsExpression()
    ensures Builds(r, Mul, self, other)
  {
    var s := Coerce(self);
    var t := Coerce(other);
    Operator(Mul, [s, t])
  }

  /** `Expression.__truediv__` */
  function Divide(self: Value, other: Value): (r: Value)
    requires self.IsExpression()
    ensures Builds(r, Div, self, other)
  {
    Operator(Div, [self, Coerce(other)])
  }

  /** `Expression.__pow__` */
  function Power(self: Value, other: Value): (r: Value)
    requires self.IsExpression()
    ensures Builds(r, Pow, self, other)
  {
    var s := Coerce(self);
    var t := Coerce(other);
    Operator(Pow, [s, t])
  }

  /** The forward dunder that implements operator `k`. */
  function Forward(k: OpKind, self: Value, other: Value): (r: Value)
    requires self.IsExpression()
    ensures Builds(r, k, self, other)
  {
    match k
    case Add => Plus(self, other)
    case Sub => Minus(self, other)
    case Mul => Times(self, other)
    case Div => Divide(self, other)
    case Pow => Power(self, other)
  }

  // The reflected dunders evaluate `self <op> other`, so they build the node with
  // `self`, the expression, on the left: `5 - x` becomes `Sub(x, Number(5))`.

  /** `Expression.__radd__` */
  function RPlus(self: Value, other: Value): (r: Result<Value, PyError>)
    requires self.IsExpression()
    ensures r == Ok(Plus(self, other))
    // Re-enters `Binary` with the expression `self` on the left, where the forward branch ends the recursion.
    decreases 1
  {
    Binary(Add, self, other)
  }

  /** `Expression.__rsub__` */
  function RMinus(self: Value, other: Value): (r: Result<Value, PyError>)
    requires self.IsExpression()
    ensures r == Ok(Minus(self, other))
    // Re-enters `Binary` with the expression `self` on the left, where the forward branch ends the recursion.
    decreases 1
  {
    Binary(Sub, self, other)
  }

  /** `Expression.__rmul__` */
  function RTimes(self: Value, other: Value): (r: Result<Value, PyError>)
    requires self.IsExpression()
    ensures r == Ok(Times(self, other))
    // Re-enters `Binary` with the expression `self` on the left, where the forward branch ends the recursion.
    decreases 1
  {
    Binary(Mul, self, other)
  }

  /** `Expression.__rtruediv__` */
  function RDivide(self: Value, other: Value): (r: Result<Value, PyError>)
    requires self.IsExpression()
    ensures r == Ok(Divide(self, other))
    // Re-enters `Binary` with the expression `self` on the left, where the forward branch ends the recursion.
    decreases 1
  {
    Binary(Div, self, other)
  }

  /**
   Python's evaluation of the written expression `a <op> b` when at least one side
   is an `Expression` (otherwise it is plain arithmetic on numbers or strings and
   never reaches these classes). A left `Expression` handles it with its forward
   dunder; otherwise the left operand's own method declines and the right operand's
   reflected dunder runs. There is no `__rpow__`, so `2 ** x` raises `TypeError`.
   */
  function Binary(k: OpKind, a: Value, b: Value): (r: Result<Value, PyError>)
    requires a.IsExpression() || b.IsExpression()
    ensures a.IsExpression() ==> r.Ok? && Builds(r.value, k, a, b)
    ensures !a.IsExpression() && k != Pow ==> r.Ok? && Builds(r.value, k, b, a)
    ensures !a.IsExpression() && k == Pow ==> r == Err(TypeError)
    // A non-expression on the left goes through a reflected dunder (rank 1), which calls back with
    // the expression on the left (rank 0); that call takes the forward branch and stops.
    decreases if a.IsExpression() then 0 else 2
  {
    if a.IsExpression() then Ok(Forward(k, a, b))
    else
      match k
      case Add => RPlus(b, a)
      case Sub => RMinus(b, a)
      case Mul => RTimes(b, a)
      case Div => RDivide(b, a)
      case Pow => Err(TypeError)
  }

  /** Writing the bare number on the left or on the right builds the same node. */
  lemma WrittenOrderIgnored(k: OpKind, n: int, e: Value)
    requires e.IsExpression() && k != Pow
    ensures Binary(k, Int(n), e) == Binary(k, e, Int(n)) == Ok(Operator(k, [e, Number(Some(n))]))
  {
  }

  /** `n ** e` with a bare number `n` fails: there is no reflected power. */
  lemma NoReflectedPower(n: int, e: Value)
    requires e.IsExpression()
    ensures Binary(Pow, Int(n), e) == Err(TypeError)
    ensures Binary(Pow, e, Int(n)) == Ok(Operator(Pow, [e, Number(Some(n))]))
  {
  }

  /** Combining two expressions keeps both operands exactly as given, in written order. */
  lemma ExpressionsNotRewrapped(k: OpKind, a: Value, b: Value)
    requires a.IsExpression() && b.IsExpression()
    ensures Binary(k, a, b) == Ok(Operator(k, [a, b]))
  {
  }

  /** Only bare numbers are wrapped: a string operand is stored as the raw string. */
  lemma StringsNotWrapped(k: OpKind, e: Value, s: string)
    requires e.IsExpression()
    ensures Binary(k, e, Str(s)) == Ok(Operator(k, [e, Str(s)]))
    ensures k != Pow ==> Binary(k, Str(s), e) == Ok(Operator(k, [e, Str(s)]))
  {
  }

  /** Whatever the sugar builds is a binary node whose left operand is an expression and whose right operand is never a bare number. */
  lemma SugarShape(k: OpKind, a: Value, b: Value)
    requires a.IsExpression() || b.IsExpression()
    ensures Binary(k, a, b).Ok? ==>
      var r := Binary(k, a, b).value;
      r.Operator? && r.kind == k && |r.o| == 2 && r.o[0].IsExpression() && !r.o[1].IsNumeric()
  {
  }

  // The reflected dunders above reverse the written order of a non-commutative
  // operator, and `**` has no reflected dunder at all. What the sugar evidently
  // means is the node with the operands in the order they are written.

  /** The node `other <op> self` for a reflected call on `self`, operands in written order. */
  function ReflectedInWrittenOrder(k: OpKind, self: Value, other: Value): (r: Value)
    requires self.IsExpression()
    ensures r.Operator? && r.kind == k && |r.o| == 2 && r.o[1] == self
    ensures other.IsNumeric() ==> r.o[0] == Number(Some(other.i))
    ensures !other.IsNumeric() ==> r.o[0] == other
  {
    Operator(k, [Coerce(other), self])
  }

  /** The written expression `a <op> b` with the sugar corrected: the same dispatch, written order kept, every operator reflected. */
  function BinaryInWrittenOrder(k: OpKind, a: Value, b: Value): (r: Value)
    requires a.IsExpression() || b.IsExpression()
    ensures r.Operator? && r.kind == k && r.o == [Coerce(a), Coerce(b)]
  {
    if a.IsExpression() then Forward(k, a, b) else ReflectedInWrittenOrder(k, b, a)
  }

  /** As written, `5 - x` builds `x - 5`, which the corrected sugar does not. */
  lemma ReflectedSubtractionReversed()
    ensures var x := Symbol(Some("x"));
      && Binary(Sub, Int(5), x) == Ok(Operator(Sub, [x, Number(Some(5))]))
      && BinaryInWrittenOrder(Sub, Int(5), x) == Operator(Sub, [Number(Some(5)), x])
      && Binary(Sub, Int(5), x) != Ok(BinaryInWrittenOrder(Sub, Int(5), x))
  {
  }

  /** As written, `1 / x` builds `x / 1`, which the corrected sugar does not. */
  lemma ReflectedDivisionReversed()
    ensures var x := Symbol(Some("x"));
      && Binary(Div, Int(1), x) == Ok(Operator(Div, [x, Number(Some(1))]))
      && Binary(Div, Int(1), x) != Ok(BinaryInWrittenOrder(Div, Int(1), x))
  {
  }

  /** The two agree whenever the left operand is an expression; they differ only in the reflected cases. */
  lemma {:induction false} CorrectionOnlyReflected(k: OpKind, a: Value, b: Value)
    requires a.IsExpression()
    ensures Binary(k, a, b) == Ok(BinaryInWrittenOrder(k, a, b))
  {
    assert Coerce(a) == a;
  }
}

=== FILE: rendering.dfy ===
/**
 The two text forms of an expression: `str` (the `__str__` methods of
 `Terminal` and `Operator`) and `repr` (their `__repr__` methods).
 */
module Rendering {
  import opened Wrappers
  import opened Text
  import opened Expressions

  /** The infix symbol `__str__` writes for each operator class. */
  function OpSymbol(k: OpKind): string {
    match k
    case Add => "+"
    case Sub => "-"
    case Mul => "*"
    case Div => "/"
    case Pow => "^"
  }

  /** `type(node).__name__` of an operator node. */
  function ClassName(k: OpKind): string {
    match k
    case Add => "Add"
    case Sub => "Sub"
    case Mul => "Mul"
    case Div => "Div"
    case Pow => "Pow"
  }

  /**
   `str` succeeds exactly on these values: every terminal it reaches has its value
   set, and every operator it reaches has at least two operands, of which only
   the first two are rendered.
   */
  predicate Renderable(v: Value) {
    match v
    case Int(_) => true
    case Str(_) => true
    case Number(n) => n.Some?
    case Symbol(n) => n.Some?
    case Operator(_, o) => 2 <= |o| && Renderable(o[0]) && Renderable(o[1])
  }

  /** The f-string `f"{left} <sym> {right}"` of `Operator.__str__`. */
  function Infix(left: string, k: OpKind, right: string): string {
    left + " " + OpSymbol(k) + " " + right
  }

  /**
   Python's `str(v)`. A terminal renders its value; an operator renders its first
   two operands around its symbol, left to right, and adds no parentheses.
   */
  function Render(v: Value): (r: Result<string, PyError>)
    ensures r.Ok? <==> Renderable(v)
    ensures r.Err? ==> r.error == AttributeError || r.error == IndexError
    ensures v.Operator? && |v.o| < 2 && (|v.o| == 0 || Renderable(v.o[0])) ==> r == Err(IndexError)
    ensures v.IsTerminal() && !Renderable(v) ==> r == Err(AttributeError)
    ensures v.Operator? && 1 <= |v.o| && Render(v.o[0]).Err? ==> r == Render(v.o[0])
    ensures v.Operator? && 2 <= |v.o| && Render(v.o[0]).Ok? && Render(v.o[1]).Err? ==> r == Render(v.o[1])
    decreases v
  {
    match v
    case Int(i) => Ok(IntToString(i))
    case Str(s) => Ok(s)
    case Number(n) => if n.Some? then Ok(IntToString(n.value)) else Err(AttributeError)
    case Symbol(n) => if n.Some? then Ok(n.value) else Err(AttributeError)
    case Operator(k, o) =>
      if |o| == 0 then Err(IndexError)
      else
        var left :- Render(o[0]);
        if |o| == 1 then Err(IndexError)
        else
          var right :- Render(o[1]);
          Ok(Infix(left, k, right))
  }

  /** The text of a value `str` renders without recursion. */
  function LeafText(v: Value): string
    requires Renderable(v) && !v.Operator?
  {
    match v
    case Int(i) => IntToString(i)
    case Str(s) => s
    case Number(n) => IntToString(n.value)
    case Symbol(n) => n.value
  }

  predicate IsOpSymbol(t: string) {
    t == "+" || t == "-" || t == "*" || t == "/" || t == "^"
  }

  /**
   The texts of the leaves `str` reaches, left to right: an operator contributes
   the leaves of its first two operands and nothing of the rest.
   */
  function LeafTexts(v: Value): (r: seq<string>)
    requires Renderable(v)
    ensures |r| > 0
    decreases v
  {
    match v
    case Operator(_, o) => LeafTexts(o[0]) + LeafTexts(o[1])
    case _ => [LeafText(v)]
  }

  /** `ts` lists `leaves` in order at its even positions, with an operator symbol between each two. */
  predicate Interleaves(ts: seq<string>, leaves: seq<string>) {
    && |ts| == 2 * |leaves| - 1
    && (forall j :: 0 <= j < |leaves| ==> ts[2 * j] == leaves[j])
    && (forall i :: 0 <= i < |ts| && i % 2 == 1 ==> IsOpSymbol(ts[i]))
  }

  lemma InterleavesAround(left: seq<string>, ll: seq<string>, sym: string, right: seq<string>, rl: seq<string>)
    requires Interleaves(left, ll) && IsOpSymbol(sym) && Interleaves(right, rl)
    requires |ll| > 0 && |rl| > 0
    ensures Interleaves(left + [sym] + right, ll + rl)
  {
    var ts := left + [sym] + right;
    var leaves := ll + rl;
    forall i | 0 <= i < |ts| && i % 2 == 1
      ensures IsOpSymbol(ts[i])
    {
      if i < |left| {
        assert ts[i] == left[i];
      } else if i > |left| {
        assert ts[i] == right[i - |left| - 1];
      }
    }
    forall j | 0 <= j < |leaves|
      ensures ts[2 * j] == leaves[j]
    {
      if j < |ll| {
        assert ts[2 * j] == left[2 * j];
      } else {
        var m := j - |ll|;
        assert 2 * j == |left| + 1 + 2 * m;
        assert ts[2 * j] == right[2 * m];
        assert leaves[j] == rl[m];
      }
    }
  }

  /**
   The tokens `str` lays out: the rendered leaves in left-to-right order with the
   operator symbols between them, the way an in-order walk of the first two
   operands meets them.
   */
  function Tokens(v: Value): (ts: seq<string>)
    requires Renderable(v)
    ensures Interleaves(ts, LeafTexts(v))
    decreases v
  {
    match v
    case Operator(k, o) =>
      var left := Tokens(o[0]);
      var right := Tokens(o[1]);
      InterleavesAround(left, LeafTexts(o[0]), OpSymbol(k), right, LeafTexts(o[1]));
      left + [OpSymbol(k)] + right
    case _ => [LeafText(v)]
  }

  lemma TokensBinaryNode(k: OpKind, left: Value, right: Value)
    requires Renderable(left) && Renderable(right)
    ensures Tokens(Operator(k, [left, right])) == Tokens(left) + [OpSymbol(k)] + Tokens(right)
  {
    var o := [left, right];
    assert o[0] == left && o[1] == right;
  }

  /** `str` of any expression is its token sequence joined by single spaces: no brackets, at any depth. */
  lemma {:induction false} RenderIsInfix(v: Value)
    requires Renderable(v)
    ensures Render(v) == Ok(Join(Tokens(v), " "))
    decreases v
  {
    match v
    case Operator(k, o) =>
      RenderIsInfix(o[0]);
      RenderIsInfix(o[1]);
      var left := Tokens(o[0]);
      var right := Tokens(o[1]);
      JoinAppend(left, [OpSymbol(k)], " ");
      JoinAppend(left + [OpSymbol(k)], right, " ");
    case _ =>
  }

  /** No terminal value or raw string operand anywhere in `v` contains a parenthesis. */
  predicate LeavesParenFree(v: Value) {
    match v
    case Int(_) => true
    case Str(s) => ParenFree(s)
    case Number(_) => true
    case Symbol(n) => n.Some? ==> ParenFree(n.value)
    case Operator(_, o) => forall i :: 0 <= i < |o| ==> LeavesParenFree(o[i])
  }

  lemma IntTextParenFree(i: int)
    ensures ParenFree(IntToString(i))
  {
    var s := IntToString(i);
    forall j | 0 <= j < |s|
      ensures s[j] != '(' && s[j] != ')'
    {
      if i < 0 && j > 0 {
        assert s[j] == s[1..][j - 1];
      }
    }
  }

  lemma InterleavedParenFree(ts: seq<string>, leaves: seq<string>)
    requires Interleaves(ts, leaves)
    requires forall j :: 0 <= j < |leaves| ==> ParenFree(leaves[j])
    ensures forall i :: 0 <= i < |ts| ==> ParenFree(ts[i])
  {
    forall i | 0 <= i < |ts|
      ensures ParenFree(ts[i])
    {
      if i % 2 == 0 {
        assert ts[2 * (i / 2)] == leaves[i / 2];
      }
    }
  }

  /** Rendering adds no parentheses: if no leaf text has one, neither does the result. */
  lemma RenderAddsNoParens(v: Value)
    requires Renderable(v)
    requires forall j :: 0 <= j < |LeafTexts(v)| ==> ParenFree(LeafTexts(v)[j])
    ensures ParenFree(Render(v).value)
  {
    RenderIsInfix(v);
    InterleavedParenFree(Tokens(v), LeafTexts(v));
    JoinParenFree(Tokens(v), " ");
  }

  /** `str` of a binary node: the operands' texts around the operator symbol, single-spaced. */
  lemma RenderBinaryNode(k: OpKind, left: Value, right: Value)
    requires Renderable(left) && Renderable(right)
    ensures Render(Operator(k, [left, right])) == Ok(Infix(Render(left).value, k, Render(right).value))
  {
    var o := [left, right];
    assert o[0] == left && o[1] == right;
  }

  /** The `str` of a node the sugar built from expression `e` and operand `other` (for `e <op> n` and for `n <op> e`). */
  lemma RenderSugar(k: OpKind, e: Value, other: Value)
    requires e.IsExpression() && Renderable(e) && Renderable(other)
    ensures Render(Forward(k, e, other)) == Ok(Infix(Render(e).value, k, Render(other).value))
  {
  }

  /** Python's repr of a string, for strings without quotes, backslashes or unprintable characters. */
  function QuoteText(s: string): string {
    "'" + s + "'"
  }

  /** Python's repr of a tuple whose elements have the given reprs; a one-element tuple keeps its trailing comma. */
  function TupleText(items: seq<string>): string {
    if |items| == 1 then "(" + items[0] + ",)" else "(" + Join(items, ", ") + ")"
  }

  /** `repr` succeeds exactly when every terminal at any depth, in any operand position, has its value set. */
  predicate AllSet(v: Value) {
    match v
    case Int(_) => true
    case Str(_) => true
    case Number(n) => n.Some?
    case Symbol(n) => n.Some?
    case Operator(_, o) => forall i :: 0 <= i < |o| ==> AllSet(o[i])
  }

  /**
   Python's `repr(v)`. A terminal shows the repr of its value; an operator shows its
   class name followed by the repr of its whole operand tuple.
   */
  function Repr(v: Value): (r: Result<string, PyError>)
    ensures r.Ok? <==> AllSet(v)
    ensures r.Err? ==> r.error == AttributeError
    decreases v, 1
  {
    match v
    case Int(i) => Ok(IntToString(i))
    case Str(s) => Ok(QuoteText(s))
    case Number(n) => if n.Some? then Ok(IntToString(n.value)) else Err(AttributeError)
    case Symbol(n) => if n.Some? then Ok(QuoteText(n.value)) else Err(AttributeError)
    case Operator(k, o) =>
      var items :- ReprItems(v, o);
      Ok(ClassName(k) + TupleText(items))
  }

  /** The reprs of the elements of an operand tuple, left to right, stopping at the first failure. */
  function ReprItems(parent: Value, vs: seq<Value>): (r: Result<seq<string>, PyError>)
    requires forall i :: 0 <= i < |vs| ==> vs[i] < parent
    ensures r.Ok? <==> forall i :: 0 <= i < |vs| ==> AllSet(vs[i])
    ensures r.Err? ==> r.error == AttributeError
    ensures r.Ok? ==> |r.value| == |vs| && forall i :: 0 <= i < |vs| ==> Repr(vs[i]) == Ok(r.value[i])
    decreases parent, 0, |vs|
  {
    if |vs| == 0 then Ok([])
    else
      var first :- Repr(vs[0]);
      var rest :- ReprItems(parent, vs[1..]);
      Ok([first] + rest)
  }

  /** A terminal's text is its value's text: `str(Number(5)) == str(5)` and `repr(Symbol("x")) == repr("x")`. */
  lemma TerminalTextIsValueText(arg: Value)
    ensures arg.IsNumeric() ==> Render(NewNumber(arg)) == Render(arg) && Repr(NewNumber(arg)) == Repr(arg)
    ensures arg.Str? ==> Render(NewSymbol(arg)) == Render(arg) && Repr(NewSymbol(arg)) == Repr(arg)
    ensures !arg.IsNumeric() ==> Render(NewNumber(arg)) == Repr(NewNumber(arg)) == Err(AttributeError)
    ensures !arg.Str? ==> Render(NewSymbol(arg)) == Repr(NewSymbol(arg)) == Err(AttributeError)
  {
  }

  /** Wrapping a bare number changes neither text: `repr` cannot tell `Add(x, 5)` from `Add(x, Number(5))`. */
  lemma {:induction false} CoerceKeepsText(v: Value)
    ensures Render(Coerce(v)) == Render(v)
    ensures Repr(Coerce(v)) == Repr(v)
  {
  }

  /** Without parentheses two different trees can render alike: `(a + b) * c` and `a + b * c` both read `a + b * c`. */
  lemma RenderIsAmbiguous(a: Value, b: Value, c: Value)
    requires Renderable(a) && Renderable(b) && Renderable(c)
    ensures Operator(Mul, [Operator(Add, [a, b]), c]) != Operator(Add, [a, Operator(Mul, [b, c])])
    ensures Render(Operator(Mul, [Operator(Add, [a, b]), c])) == Render(Operator(Add, [a, Operator(Mul, [b, c])]))
  {
    var sum := Operator(Mul, [Operator(Add, [a, b]), c]);
    var product := Operator(Add, [a, Operator(Mul, [b, c])]);
    var ta, tb, tc := Tokens(a), Tokens(b), Tokens(c);
    TokensBinaryNode(Add, a, b);
    TokensBinaryNode(Mul, b, c);
    TokensBinaryNode(Mul, Operator(Add, [a, b]), c);
    TokensBinaryNode(Add, a, Operator(Mul, [b, c]));
    Regroup(ta, [OpSymbol(Add)], tb, [OpSymbol(Mul)], tc);
    RenderIsInfix(sum);
    RenderIsInfix(product);
  }

  /** As written, `n - e` renders as `e - n`; with the corrected sugar it renders in written order. */
  lemma {:induction false} ReflectedSubtractionText(n: int, e: Value)
    requires e.IsExpression() && Renderable(e)
    ensures Render(Binary(Sub, Int(n), e).value) == Ok(Infix(Render(e).value, Sub, IntToString(n)))
    ensures Render(BinaryInWrittenOrder(Sub, Int(n), e)) == Ok(Infix(IntToString(n), Sub, Render(e).value))
  {
    assert Coerce(e) == e;
    assert Render(Number(Some(n))) == Ok(IntToString(n));
    assert Binary(Sub, Int(n), e).value == Operator(Sub, [e, Number(Some(n))]);
    assert BinaryInWrittenOrder(Sub, Int(n), e) == Operator(Sub, [Number(Some(n)), e]);
    RenderBinaryNode(Sub, e, Number(Some(n)));
    RenderBinaryNode(Sub, Number(Some(n)), e);
  }

  /** The corrected sugar renders every written expression in the order it was written. */
  lemma {:induction false} WrittenOrderText(k: OpKind, a: Value, b: Value)
    requires a.IsExpression() || b.IsExpression()
    requires Renderable(a) && Renderable(b)
    ensures Render(BinaryInWrittenOrder(k, a, b)) == Ok(Infix(Render(a).value, k, Render(b).value))
  {
    CoerceKeepsText(a);
    CoerceKeepsText(b);
  }

  lemma QuoteParenFree(s: string)
    requires ParenFree(s)
    ensures ParenFree(QuoteText(s))
  {
  }

  /** `repr` of an operator is its class name followed by the tuple of its operands' own reprs, in order. */
  lemma ReprOperatorShape(k: OpKind, o: seq<Value>)
    requires AllSet(Operator(k, o))
    ensures Repr(Operator(k, o)) == Ok(ClassName(k) + TupleText(seq(|o|, i requires 0 <= i < |o| => Repr(o[i]).value)))
  {
    var v := Operator(k, o);
    var items := ReprItems(v, o).value;
    assert items == seq(|o|, i requires 0 <= i < |o| => Repr(o[i]).value);
  }

  /** `repr` of a binary node: the class name, then both operands' reprs in parentheses, separated by a comma. */
  lemma ReprBinaryNode(k: OpKind, left: Value, right: Value)
    requires AllSet(left) && AllSet(right)
    ensures Repr(Operator(k, [left, right])) == Ok(ClassName(k) + "(" + Repr(left).value + ", " + Repr(right).value + ")")
  {
    var o := [left, right];
    var v := Operator(k, o);
    var l, r := Repr(left).value, Repr(right).value;
    assert o[0] == left && o[1] == right;
    var items := ReprItems(v, o).value;
    assert items[0] == l && items[1..] == [r];
    assert Join(items, ", ") == l + ", " + r;
    Flatten(ClassName(k), "(", l, ", ", r, ")");
  }

  lemma TupleTextBalanced(items: seq<string>)
    requires forall i :: 0 <= i < |items| ==> Balanced(items[i])
    ensures Balanced(TupleText(items))
  {
    if |items| == 1 {
      ParenFreeBalanced(",");
      BalancedAppend(items[0], ",");
      Parenthesized(items[0] + ",");
      assert TupleText(items) == "(" + (items[0] + ",") + ")";
    } else {
      ParenFreeBalanced(", ");
      JoinBalanced(items, ", ");
      Parenthesized(Join(items, ", "));
    }
  }

  /** The parentheses `repr` writes are balanced, provided no terminal value or raw string contributes one. */
  lemma {:induction false} ReprBalanced(v: Value)
    requires AllSet(v) && LeavesParenFree(v)
    ensures Balanced(Repr(v).value)
    decreases v
  {
    match v
    case Int(i) =>
      IntTextParenFree(i);
      ParenFreeBalanced(IntToString(i));
    case Str(s) =>
      QuoteParenFree(s);
      ParenFreeBalanced(QuoteText(s));
    case Number(n) =>
      IntTextParenFree(n.value);
      ParenFreeBalanced(IntToString(n.value));
    case Symbol(n) =>
      QuoteParenFree(n.value);
      ParenFreeBalanced(QuoteText(n.value));
    case Operator(k, o) =>
      var items := ReprItems(v, o).value;
      forall i | 0 <= i < |items|
        ensures Balanced(items[i])
      {
        ReprBalanced(o[i]);
      }
      TupleTextBalanced(items);
      ParenFreeBalanced(ClassName(k));
      BalancedAppend(ClassName(k), TupleText(items));
  }

  /** `str` renders `o[0]` before it reads `o[1]`: an unset first operand raises `AttributeError` ahead of the `IndexError`. */
  lemma ShortTuplesRender()
    ensures Render(Operator(Add, [])) == Err(IndexError)
    ensures Render(Operator(Add, [Int(5)])) == Err(IndexError)
    ensures Render(Operator(Add, [Number(None)])) == Err(AttributeError)
  {
  }

  /** `repr` of an operator with no operands is its class name and `()`: it does not raise. */
  lemma ReprEmptyTuple(k: OpKind)
    ensures Repr(Operator(k, [])) == Ok(ClassName(k) + "()")
  {
    ReprOperatorShape(k, []);
    assert TupleText([]) == "()";
  }

  /** `repr` of an operator with one operand keeps Python's one-element trailing comma. */
  lemma ReprOneTuple(k: OpKind, only: Value)
    requires AllSet(only)
    ensures Repr(Operator(k, [only])) == Ok(ClassName(k) + "(" + Repr(only).value + ",)")
  {
    var o := [only];
    var t := Repr(only).value;
    assert o[0] == only;
    var items := ReprItems(Operator(k, o), o).value;
    assert items == [t];
    assert ClassName(k) + ("(" + t + ",)") == ClassName(k) + "(" + t + ",)";
  }

  /** `repr(5 - Symbol("x"))` shows the swapped operands: `Sub('x', 5)`. */
  lemma ReprOfReflectedSubtraction()
    ensures Repr(Binary(Sub, Int(5), Symbol(Some("x"))).value) == Ok("Sub('x', 5)")
  {
    var x, five := Symbol(Some("x")), Number(Some(5));
    assert Binary(Sub, Int(5), x).value == Operator(Sub, [x, five]);
    ReprBinaryNode(Sub, x, five);
    assert QuoteText("x") == "'x'";
    assert "Sub" + "(" + "'x'" + ", " + "5" + ")" == "Sub('x', 5)";
  }
}

=== FILE: text.dfy ===
/**
 Text helpers: Python's `str` of an integer, joining with a separator and
 counting characters, with the facts about them that rendering relies on.
 */
module Text {

  predicate IsDigit(c: char) {
    '0' <= c <= '9'
  }

  function DigitChar(d: nat): (c: char)
    requires d < 10
    ensures IsDigit(c)
    ensures DigitValue(c) == d
  {
    "0123456789"[d]
  }

  function DigitValue(c: char): nat
    requires IsDigit(c)
  {
    (c as int - '0' as int) as nat
  }

  predicate AllDigits(s: string) {
    forall i :: 0 <= i < |s| ==> IsDigit(s[i])
  }

  /** The decimal digits of `n`, most significant first, without leading zeros. */
  function NatToString(n: nat): (s: string)
    ensures 0 < |s|
    ensures AllDigits(s)
    decreases n
  {
    if n < 10 then [DigitChar(n)] else NatToString(n / 10) + [DigitChar(n % 10)]
  }

  /** Reads a run of decimal digits back as a number; a character that is not a digit counts as zero. */
  function ParseNat(s: string): nat {
    if |s| == 0 then 0
    else
      var last := s[|s| - 1];
      10 * ParseNat(s[..|s| - 1]) + (if IsDigit(last) then DigitValue(last) else 0)
  }

  lemma {:induction false} ParseNatToString(n: nat)
    ensures ParseNat(NatToString(n)) == n
    decreases n
  {
    var s := NatToString(n);
    if n < 10 {
    } else {
      ParseNatToString(n / 10);
      assert s[..|s| - 1] == NatToString(n / 10);
    }
  }

  /** Python's `str` (and `repr`) of an `int`: an optional minus sign followed by decimal digits. */
  function IntToString(i: int): (s: string)
    ensures 0 < |s|
  {
    if i < 0 then "-" + NatToString(-i) else NatToString(i)
  }

  /** Reads back the text `IntToString` produces. */
  function ParseInt(s: string): int {
    if 0 < |s| && s[0] == '-' then -(ParseNat(s[1..]) as int) else ParseNat(s)
  }

  lemma ParseNegativeText(n: nat)
    ensures ParseInt("-" + NatToString(n)) == -(n as int)
  {
    var digits := NatToString(n);
    assert ("-" + digits)[1..] == digits;
    ParseNatToString(n);
  }

  lemma ParseNonNegativeText(n: nat)
    ensures ParseInt(NatToString(n)) == n
  {
    assert IsDigit(NatToString(n)[0]);
    ParseNatToString(n);
  }

  /** `str` of an integer loses nothing: distinct integers have distinct texts. */
  lemma ParseIntToString(i: int)
    ensures ParseInt(IntToString(i)) == i
  {
    if i < 0 {
      ParseNegativeText(-i);
    } else {
      ParseNonNegativeText(i);
    }
  }

  /** The elements of `ts` separated by `sep`, as Python's `sep.join(ts)`. */
  function Join(ts: seq<string>, sep: string): string {
    if |ts| == 0 then ""
    else if |ts| == 1 then ts[0]
    else ts[0] + sep + Join(ts[1..], sep)
  }

  lemma {:induction false} JoinAppend(a: seq<string>, b: seq<string>, sep: string)
    requires 0 < |a| && 0 < |b|
    ensures Join(a + b, sep) == Join(a, sep) + sep + Join(b, sep)
    decreases |a|
  {
    assert (a + b)[0] == a[0];
    assert (a + b)[1..] == a[1..] + b;
    if |a| > 1 {
      JoinAppend(a[1..], b, sep);
    }
  }

  /** Concatenation regroups freely: the middle part can move into the right-hand group. */
  lemma Regroup<T>(p: seq<T>, q: seq<T>, r: seq<T>, s: seq<T>, t: seq<T>)
    ensures (p + q + r) + s + t == p + q + (r + s + t)
  {
  }

  /** A nested concatenation of six parts equals their flat left-to-right concatenation. */
  lemma Flatten<T>(a: seq<T>, b: seq<T>, c: seq<T>, d: seq<T>, e: seq<T>, f: seq<T>)
    ensures a + (b + (c + d + e) + f) == a + b + c + d + e + f
  {
  }

  /** The number of occurrences of `c` in `s`. */
  function Count(c: char, s: string): nat {
    if |s| == 0 then 0 else (if s[0] == c then 1 else 0) + Count(c, s[1..])
  }

  lemma {:induction false} CountAppend(c: char, s: string, t: string)
    ensures Count(c, s + t) == Count(c, s) + Count(c, t)
    decreases |s|
  {
    if |s| > 0 {
      assert (s + t)[1..] == s[1..] + t;
      CountAppend(c, s[1..], t);
    } else {
      assert s + t == t;
    }
  }

  lemma {:induction false} CountAbsent(c: char, s: string)
    requires c !in s
    ensures Count(c, s) == 0
    decreases |s|
  {
    if |s| > 0 {
      assert s[0] != c;
      CountAbsent(c, s[1..]);
    }
  }

  predicate ParenFree(s: string) {
    '(' !in s && ')' !in s
  }

  /** Opening minus closing parentheses. */
  function Depth(s: string): int {
    Count('(', s) - Count(')', s)
  }

  lemma DepthAppend(s: string, t: string)
    ensures Depth(s + t) == Depth(s) + Depth(t)
  {
    CountAppend('(', s, t);
    CountAppend(')', s, t);
  }

  /**
   * Properly nested parentheses: as many opening as closing ones, and no
   * prefix closes more than it has opened (so ")(" is not balanced).
   */
  predicate Balanced(s: string) {
    Depth(s) == 0 && forall k :: 0 <= k <= |s| ==> Depth(s[..k]) >= 0
  }

  /** Equal counts are not enough: a closing parenthesis before its opening one is unbalanced. */
  lemma CloseFirstUnbalanced()
    ensures !Balanced(")(")
  {
    assert ")("[..1] == ")";
    assert Depth(")") == -1;
  }

  lemma ParenFreeBalanced(s: string)
    requires ParenFree(s)
    ensures Balanced(s)
  {
    forall k | 0 <= k <= |s|
      ensures Depth(s[..k]) == 0
    {
      assert ParenFree(s[..k]) by {
        assert forall c :: c in s[..k] ==> c in s;
      }
      CountAbsent('(', s[..k]);
      CountAbsent(')', s[..k]);
    }
    assert s[..|s|] == s;
  }

  lemma BalancedAppend(s: string, t: string)
    requires Balanced(s) && Balanced(t)
    ensures Balanced(s + t)
  {
    DepthAppend(s, t);
    forall k | 0 <= k <= |s + t|
      ensures Depth((s + t)[..k]) >= 0
    {
      if k <= |s| {
        assert (s + t)[..k] == s[..k];
      } else {
        assert (s + t)[..k] == s + t[..k - |s|];
        DepthAppend(s, t[..k - |s|]);
      }
    }
  }

  lemma Parenthesized(s: string)
    requires Balanced(s)
    ensures Balanced("(" + s + ")")
  {
    var p := "(" + s + ")";
    assert Depth("(") == 1 && Depth(")") == -1;
    DepthAppend("(", s);
    DepthAppend("(" + s, ")");
    forall k | 0 <= k <= |p|
      ensures Depth(p[..k]) >= 0
    {
      if k == 0 {
        assert p[..k] == "";
      } else if k <= |s| + 1 {
        assert p[..k] == "(" + s[..k - 1];
        DepthAppend("(", s[..k - 1]);
      } else {
        assert p[..k] == p;
      }
    }
  }

  /** Joining balanced texts with a balanced separator gives a balanced text. */
  lemma {:induction false} JoinBalanced(ts: seq<string>, sep: string)
    requires Balanced(sep)
    requires forall i :: 0 <= i < |ts| ==> Balanced(ts[i])
    ensures Balanced(Join(ts, sep))
    decreases |ts|
  {
    if |ts| == 0 {
    } else if |ts| == 1 {
    } else {
      JoinBalanced(ts[1..], sep);
      BalancedAppend(ts[0], sep);
      BalancedAppend(ts[0] + sep, Join(ts[1..], sep));
    }
  }

  /** Every character of a joined text comes from the separator or from one of the parts. */
  lemma {:induction false} JoinParenFree(ts: seq<string>, sep: string)
    requires ParenFree(sep)
    requires forall i :: 0 <= i < |ts| ==> ParenFree(ts[i])
    ensures ParenFree(Join(ts, sep))
    decreases |ts|
  {
    if |ts| > 1 {
      JoinParenFree(ts[1..], sep);
    }
  }
}

=== FILE: wrappers.dfy ===
/** Failure-compatible wrappers shared by the expression model. */
module Wrappers {

  /** An optional value: a terminal whose `value` attribute was never set holds `None`. */
  datatype Option<+T> = None | Some(value: T)

  /** The outcome of a Python call that either returns a value or raises an exception. */
  datatype Result<+T, +E> = Ok(value: T) | Err(error: E) {

    predicate IsFailure() {
      Err?
    }

    function PropagateFailure<U>(): Result<U, E>
      requires Err?
    {
      Err(error)
    }

    function Extract(): T
      requires Ok?
    {
      value
    }
  }
}
